=== FILE: README.md ===
# ibusmem in Dafny

A model of the in-memory request bus of `ibusmem` (`impl.go`): a caller
sends a request with `SendRequest2`, and the handler answers through a
single-use reply token. The answer is either one response (`SendResponse`) or a
sectioned result (`SendParallelResponse2`). A sectioned result is a stream of
array, map and object sections, each holding named elements, which the handler
writes and the caller reads.

The model is a sequential, functional state machine. Each channel, `select`
and timer is replaced by an explicit input:

- Every blocking send of the result stream takes a `SendOutcome`:
  - `Accepted`: the consumer took the value;
  - `Cancelled(reason)`: the caller's context was done;
  - `TimedOut`: the per-stream timer fired.
- `SendRequest2` takes two inputs:
  - how the handler call ended: it returned, with the case the waiting
    goroutine's `select` took; or it panicked with some value, with whatever
    the waiting goroutine had written by then;
  - `ctx.Err()` at the final check after the wait.

A Go panic is the `Fatal(reason)` outcome of an operation. What the consumer
has received is a log of observed sections, each with its elements in
arrival order. The channels are unbuffered, so this log is exactly what the
consumer has been handed.

Modules, one per part of the bus:

- `Common`: payloads, errors, panics, and the resolution of one guarded send
  (`SelectSend`).
- `ChannelSender`: the reply token and the two ways to reply.
- `Bus`: the outcome mapping of `SendRequest2`.
- `StreamLog`: sections, elements and the observed log.
- `ResultSender`: the producer, `resultSenderClosable`.
- `SectionViews`: the consumer. This covers receiving sections, `Next` on array
  and map sections, and `Value` on object sections.
- `Trace`: whole runs of producer calls, and what the consumer can observe of
  them.
- `Subsequence`: the order-preserving sub-sequence relation that `Trace`
  states its result with.
- `Scenarios`: the usage scenarios of `impl_test.go`, replayed on the model.

Three behaviours of `impl.go` are easy to miss, and the model keeps them:

- Failed sends are not sticky. When a section send fails, the section stays
  pending and the next `SendElement` tries it again (`impl.go:176-188`).
  There is no recorded error that short-circuits later calls.
- Starting a section hands nothing to the consumer. The section is sent
  lazily, by the first element that is not nil and can be encoded
  (`impl.go:109-156`).
- `Close` on a producer that never started a section leaves the element
  channel nil. A section started after that `Close` therefore does not
  panic. Only the first non-nil, encodable element sent into that section
  panics, with "send on closed channel", unless the context case of that
  send's `select` wins (`impl.go:163-172`).

## Model

| member | source | states |
|---|---|---|
| Common.SelectSend | impl.go:178-185 | a guarded send hands the value over exactly when its channel is open and the receiver takes it. A refusal carries the context's error, or ErrNoConsumer when the timer fired on an open channel. On a closed channel the send case is always ready, so the call panics unless the context case wins the `select`; Go picks among ready cases at random, so a done context may still lose, and the outcome input says which case won |
| ChannelSender.Send | impl.go:95-98 | the first send on the reply token succeeds and leaves the value readable. Every later send panics with "send on closed channel" |
| ChannelSender.SendResponse | impl.go:65-68 | a sender argument that is not the bus's token panics. On the token, the reply succeeds exactly when the token is unused, and then the waiting caller receives that response |
| ChannelSender.SendParallelResponse2 | impl.go:70-81 | with a wrong sender, or a token that was already used, the call panics. Otherwise the handler gets a fresh, empty producer, and the caller receives that same producer |
| ChannelSender.Receive | impl.go:37-38 | the waiting caller's receive is ready exactly when the token has been used, and then yields the reply sent on it |
| ChannelSender.AtMostOneReply | impl.go:95-98 | after one successful reply, the token still holds that reply, and any further send panics |
| ChannelSender.SecondReplyPanics | impl_test.go:162-170 | after either kind of reply, a second reply of either kind panics with "send on closed channel" |
| Bus.SendRequest2 | impl.go:21-62 | the one outcome shape per case: a reply with a live context gives exactly that reply, and a done context or a timeout gives that error alone. A context error at the final check overrides `err` whichever case won, but keeps the response or stream the waiter wrote, so a live stream can come back with the context's error. A handler panic is captured in `err`, never propagated: a string or error panic replaces `err`, any other value keeps the waiter's error, and the response or stream the waiter had written stays. A stream and a response never come together |
| Bus.NoErrorExactly | impl.go:21-62 | the caller sees no error if and only if one of two things happened. Either a reply arrived while the context stayed live, or the handler panicked with a value that is neither a string nor an error, and the waiter had seen nothing but a reply |
| ResultSender.BeginSection | impl.go:168-174 | starting a section panics exactly when the element channel was closed by `Close`. Otherwise it sends nothing, so the observed log is unchanged. It closes the element sequence of every observed section and makes the new section the only pending one |
| ResultSender.StartArraySection | impl.go:109-115 | succeeds exactly when the element channel is not closed. On success the observed log is unchanged and the pending section is an array section with the given type and path |
| ResultSender.StartMapSection | impl.go:117-123 | the same as `StartArraySection`, for a map section |
| ResultSender.TrySendSection | impl.go:176-188 | with no pending section, nothing happens. Otherwise a done context returns the context's error, a timer that fired on an open stream returns ErrNoConsumer, and a taken send succeeds. When the consumer takes the section, it becomes the last observed section, with no elements yet. A refusal leaves the producer unchanged. A section sent after `Close` panics unless the context case wins the `select` (Go picks at random among ready cases, so a done context may still lose) |
| ResultSender.TrySendElement | impl.go:190-199 | a done context returns the context's error, a timer that fired on an open element channel returns ErrNoConsumer, and a taken send succeeds. When taken, the element is appended to the last observed section, and nothing else changes. A refusal changes nothing. A send on the closed element channel panics unless the context case wins the `select` (Go picks at random among ready cases, so a done context may still lose) |
| ResultSender.SendEncoded | impl.go:147-155 | on success, the consumer has observed everything it had plus the pending section, followed by the element. A refusal leaves what the consumer has or is owed unchanged. Only a closed stream can make it panic |
| ResultSender.DeliveredWithElement | impl.go:147-155 | a pending section that gets through arrives with the element as its only element |
| ResultSender.SendElement | impl.go:134-156 | a nil value is a no-op even with no section started. A non-nil value before any section panics. An unencodable value returns the encoder's error and changes nothing. On success, the element follows the pending section, if any, in what the consumer sees, and a byte slice arrives exactly as given, without the encoder. A refused send reports a done context's error or ErrNoConsumer, matching the outcome that refused it, and leaves what the consumer has or is owed unchanged |
| ResultSender.AcceptedElementAppends | impl.go:190-193 | when the consumer takes it, an element for an already delivered section is appended to exactly that section |
| ResultSender.AcceptedElementDeliversSection | impl.go:176-193 | when the consumer takes both sends, the pending section is delivered, with the element inside it |
| ResultSender.RefusedElementKeepsSection | impl.go:147-155 | when the pending section gets through but the element send is refused, the section is observed with no element, and the context's error or ErrNoConsumer is returned according to the outcome. With no pending section, the producer is unchanged |
| ResultSender.UntakenElementChangesNothing | impl.go:196-197 | an element the consumer does not take in time returns ErrNoConsumer and leaves the producer unchanged |
| ResultSender.RefusedSectionChangesNothing | impl.go:147-150 | when the pending section's send is refused, the element is not sent. The producer is unchanged, so the section stays pending, and the error is the context's or ErrNoConsumer |
| ResultSender.ObjectSection | impl.go:125-132 | panics after `Close` once any section was started, and never before `Close`. With a nil or unencodable value, the object section stays pending and is not observed. On success, it is observed with the encoded value as its only element. Every result keeps `Valid` |
| ResultSender.ObjectSectionOutcomes | impl.go:125-132 | for every pair of send outcomes: the call panics exactly when the stream was closed, by a section started before `Close` or by a value sent after it unless the context case won. A refused section send leaves the section pending and returns the context's error or ErrNoConsumer. When the section got through and the element send is refused, the section stays observed with no element and the element outcome's error is returned |
| ResultSender.UnsentObjectSection | impl.go:125-146 | an object section with a nil or unencodable value stays pending whatever the send outcomes, so it is not observed unless a later non-nil, encodable element is sent before the next section start or `Close`. A nil value returns no error, an unencodable one the encoder's error |
| ResultSender.AcceptedObjectSection | impl.go:125-132 | when the consumer takes both sends, the object section is observed at once, with the encoded value as its only element |
| ResultSender.ObjectSectionElementCancelled | impl.go:125-132 | when the section send is taken but the element send loses to a done context, the object section is observed with no element, and the context's error is returned |
| ResultSender.Close | impl.go:158-166 | a second `Close` panics. The completion slot is written only for a non-nil error. The stream and every element sequence are closed, and the observed log is unchanged |
| ResultSender.AfterClose | impl.go:158-174 | after `Close`, a second `Close` panics. Starting a section panics if any section had been started before, and goes through if none had |
| ResultSender.DeliverGrows | impl.go:179-180 | handing the pending section over keeps `Valid`. It only extends what the consumer has observed |
| ResultSender.AppendToLastGrows | impl.go:192-193 | handing an element over changes only the open last section, and only by extending it |
| StreamLog.AppendToLast | impl.go:192-193 | an accepted element lands at the end of the last observed section. Every other section and the section's metadata stay as they were |
| SectionViews.NextSection | impl_test.go:69-93 | the consumer receives the observed sections in the order they were delivered. Once all are read, it sees the end exactly when the stream was closed, and otherwise would block |
| SectionViews.ArrayNext | impl.go:215-220 | `Next` yields the element values in send order. It reports the end, `(nil, false)`, exactly when all values were read and the element sequence is closed, and otherwise would block |
| SectionViews.MapNext | impl.go:236-241 | `Next` yields the elements with their names in send order. It reports the end, `("", nil, false)`, exactly when all were read and the sequence is closed |
| SectionViews.ObjectValue | impl.go:258-265 | the first `Value` returns the section's element, or nil if the sequence closed without one. Every later call returns nil |
| SectionViews.DrainArray | impl.go:215-220 | reading an array section until `Next` stops yields exactly the section's element values in send order. It ends exactly when the element sequence is closed |
| SectionViews.DrainSections | impl_test.go:256-257 | ranging over the section channel yields every observed section in delivery order. It ends exactly when the stream was closed |
| SectionViews.ReadsAreStable | impl.go:215-265 | as the producer goes on, an answer a read once gave never changes. An element, section or object value read stays the same, and an end stays an end |
| Trace.Apply | impl.go:109-166 | any producer call that does not panic keeps `Valid`. What the consumer observed only grows: sections keep their metadata, closed element sequences and a closed stream never change |
| Trace.Run | impl.go:109-166 | the same holds for any sequence of producer calls |
| Trace.SectionStartOrder | impl.go:109-123 | starting a section leaves the observed log unchanged, and what the consumer has or is owed becomes that log followed by the new section: any previously pending, unsent section is dropped. Hence the new section is the only addition |
| Trace.SendElementVisible | impl.go:134-156 | `SendElement` adds at most its own element to what the consumer has or is owed |
| Trace.StepOrder | impl.go:109-166 | one call adds to what the consumer has or is owed only a sub-sequence of what it tried to send, in order |
| Trace.RunOrder | impl.go:176-199 | over a sequence of calls, what the consumer has or is owed stays a sub-sequence of what was there plus what the calls tried to send |
| Trace.ConsumerSeesAttemptsInOrder | impl.go:176-199 | whatever the send outcomes, the consumer observes a sub-sequence of the sections and elements the calls attempted, in call order. Each section comes at most once and before its elements |
| Scenarios.SingleResponse | impl_test.go:25-37 | a single response reaches the caller with no stream and no error |
| Scenarios.StreamResponse | impl_test.go:65-68 | a stream reply reaches the caller as a fresh producer, with an empty response and no error |
| Scenarios.CallerSideFailures | impl_test.go:103-157 | timeout, a cancelled context, and string or error panics of the handler each give the documented error with empty fields |
| Scenarios.CancelOverridesReply | impl.go:58-61 | a reply that wins against a context done at the same moment is still reported as cancelled |
| Scenarios.HandlerReusingTokenFails | impl.go:22-31 | a handler that sends twice without recovering gets the runtime error to the caller. If the waiter took the first response before the panic, the caller also gets that response; if not, the response is empty |
| Scenarios.SectionedResultArray | impl_test.go:54-56 | the array part of the sectioned scenario: the section reaches the consumer with its first element, and the second element follows |
| Scenarios.SectionedResultMap | impl_test.go:57-59 | the map part: a map section with two named elements, after the earlier sections |
| Scenarios.SectionedResultObjectAndClose | impl_test.go:60-61 | the object part and `Close` with an error: the object section is observed with its value, and the slot holds the error |
| Scenarios.SectionedResultConsumer | impl_test.go:69-94 | the consumer's reads at the end of the scenario: the sections in order, with type and path, elements in order then the end, the object's value, the end of the stream, and the error |
| Scenarios.ObjectSectionWithoutConsumer | impl_test.go:213-233 | an object section nobody reads returns ErrNoConsumer. After `Close(nil)` the consumer finds no section and no error |
| Scenarios.ObjectSectionCancelledOnSection | impl_test.go:234-259 | an object section whose section send loses to a done context returns the context error, and the section stays pending |
| Scenarios.ObjectSectionCancelledOnElement | impl_test.go:234-259 | when the section gets through and its element send loses to a done context, the call still returns the context error. The consumer receives the section, and after `Close` its `Value` is nil |
| Scenarios.NilObjectSectionUnsent | impl_test.go:264-281 | an object section with a nil value returns no error, and after `Close` the consumer finds no section |
| Scenarios.UnencodableObjectSectionUnsent | impl_test.go:300-314 | an object section whose value cannot be encoded returns the encoder's error, and after `Close` the consumer finds no section |
| Scenarios.ElementBeforeSection | impl_test.go:282-299 | an element before any section panics with "section is not started", and a nil one does not |
| Scenarios.ObjectSectionAfterClose | impl_test.go:315-338 | after `Close`, another object section panics, and the consumer still reads the first object's value |
| Scenarios.ElementWithoutConsumer | impl_test.go:390-415 | an element nobody takes returns ErrNoConsumer. The consumer reads exactly the first element, then the end |
| Scenarios.ElementCancelled | impl_test.go:416-446 | an element whose send loses to a done context returns the context error and changes nothing. After `Close` the consumer reads exactly the first element, then the end, and finds no error |
| Scenarios.ObjectValueOnce | impl_test.go:450-469 | `Value` returns the element once, then nil |
| Scenarios.SectionSendRetried | impl.go:176-188 | a section the consumer missed once is delivered by the next element, followed by that element |
| Scenarios.SectionAfterCloseWithoutSections | impl.go:163-172 | after `Close` with no section ever started, a new section starts without a panic. Its first non-nil, encodable element panics unless the context case wins the `select` (Go picks at random among ready cases, so a done context may still lose) |

## Left out

- Goroutines, `sync.WaitGroup`, channel blocking, `time.After` and all durations: each `select` is an explicit outcome input, and timing is not modelled.
- The value encoder (`json.Marshal`): a non-byte value carries the encoder's result, bytes or a refusal; JSON itself is not modelled.
- A typed nil `[]byte` passed as an element is sent as an empty value (`Raw([])`); a nil interface is `Nil`.
- The state after a recovered panic: a panicking operation yields only `Fatal(reason)`. For example, a second `Close(err)` writes the completion slot before panicking; that write is not kept.
- Panics in goroutines the handler starts are not captured by `SendRequest2`; only panics on the handler's own call are modelled.
- Bus.SendRequest2: on a handler panic, the fields are whatever the waiting goroutine had written by then (`waitedSoFar`); the data race between that goroutine and the recovery is not modelled further.
- Bus.PanicValueOf: the text of the type-assertion panic for a wrong sender is shortened to "interface conversion".
- `Type()` and `Path()` of the section views are the `sectionType` and `path` fields of `Section`.
- Consumer behaviour is not tied to the send outcomes: the outcomes are free inputs. For example, `SendElement` can put a second element into an object section with `Accepted`, although `Value` reads only the first element and a real consumer would leave the second send to time out.
- Trace.ConsumerSeesAttemptsInOrder: states order and at-most-once delivery as a sub-sequence of the attempts; which attempts got through is stated per call by `SendElement` and `TrySendSection`, not by this lemma.
- `provide.go` (constructor wiring, which refers to timer fields the bus does not have), `types.go` (duplicate type declarations) and `errors.go` (sentinels the core does not use) are not part of this model.
- The benchmark throughput of `impl_benchmark_test.go` is not modelled.

=== FILE: bus.dfy ===
/** `SendRequest2`: the caller's side of one request.

    The handler runs on the caller's own goroutine; a second goroutine waits
    for the first of three events — a reply through the token, the caller's
    context being done, or the timeout — and writes the result fields.  The
    model takes the outcome of that race and of the handler as inputs.
 */
module Bus {
  import opened Common
  import opened ResultSender
  import opened ChannelSender

  /** A value the handler panicked with. */
  datatype PanicValue = StringPanic(text: string) | ErrorPanic(err: Error) | OtherPanic

  /** The case of the waiting goroutine's `select` that fired. */
  datatype Winner = Received(reply: Reply) | CtxDone(reason: CtxErr) | TimerFired

  /** How the handler call ended.  `Returned`: the caller then waits for the
      waiting goroutine, whose `select` had `waited` win.  `Panicked`: the
      recovery runs at once, without waiting; `waitedSoFar` is the case the
      waiting goroutine had already completed by then, if any. */
  datatype HandlerExit =
    | Returned(waited: Winner)
    | Panicked(value: PanicValue, waitedSoFar: Option<Winner>)

  /** `(res, sections, secError, err)`.  `stream` stands for both `sections`
      and `secError`, which are always set together from the same producer. */
  datatype RequestResult = RequestResult(res: Response, stream: Option<Producer>, err: Option<Error>)

  const NoResult := RequestResult(EmptyResponse, None, None)

  /** What the waiting goroutine writes into the result fields. */
  function WaiterWrites(w: Winner): (r: RequestResult)
    ensures w.Received? && w.reply.ResponseReply? ==> r == RequestResult(w.reply.response, None, None)
    ensures w.Received? && w.reply.StreamReply? ==> r == RequestResult(EmptyResponse, Some(w.reply.stream), None)
    ensures w.CtxDone? ==> r == RequestResult(EmptyResponse, None, Some(CtxError(w.reason)))
    ensures w.TimerFired? ==> r == RequestResult(EmptyResponse, None, Some(TimeoutExpired))
  {
    match w
    case Received(ResponseReply(response)) => RequestResult(response, None, None)
    case Received(StreamReply(stream)) => RequestResult(EmptyResponse, Some(stream), None)
    case CtxDone(reason) => RequestResult(EmptyResponse, None, Some(CtxError(reason)))
    case TimerFired => RequestResult(EmptyResponse, None, Some(TimeoutExpired))
  }

  /** The deferred `recover`: a string panic becomes an error with that text,
      an error panic becomes that error, any other panic value leaves `err`
      as it was. */
  function Recovered(v: PanicValue, err: Option<Error>): (r: Option<Error>)
    ensures v.StringPanic? ==> r == Some(Message(v.text))
    ensures v.ErrorPanic? ==> r == Some(v.err)
    ensures v.OtherPanic? ==> r == err
  {
    match v
    case StringPanic(text) => Some(Message(text))
    case ErrorPanic(e) => Some(e)
    case OtherPanic => err
  }

  /** The panic value of a runtime failure raised inside the handler: the Go
      runtime panics with an error value, the stream with a string. */
  function PanicValueOf(reason: PanicReason): (v: PanicValue)
    ensures reason == SectionNotStarted ==> v == StringPanic("section is not started")
    ensures reason == SendOnClosedChannel ==> v == ErrorPanic(RuntimeError("send on closed channel"))
    ensures reason != SectionNotStarted ==> v.ErrorPanic? && v.err.RuntimeError?
  {
    match reason
    case SendOnClosedChannel => ErrorPanic(RuntimeError("send on closed channel"))
    case CloseOfClosedChannel => ErrorPanic(RuntimeError("close of closed channel"))
    case SectionNotStarted => StringPanic("section is not started")
    case WrongSender => ErrorPanic(RuntimeError("interface conversion"))
  }

  /** `SendRequest2`.  `ctxAtEnd` is `ctx.Err()` when the call re-checks the
      context after the wait; the context cannot be un-done, so a wait that
      ended on the context implies the re-check sees the same error. */
  function SendRequest2(exit: HandlerExit, ctxAtEnd: Option<CtxErr>): (r: RequestResult)
    requires exit.Returned? && exit.waited.CtxDone? ==> ctxAtEnd == Some(exit.waited.reason)
    // a reply received and a context still live: exactly the reply
    ensures exit.Returned? && ctxAtEnd.None? && exit.waited.Received? && exit.waited.reply.ResponseReply? ==>
              r == RequestResult(exit.waited.reply.response, None, None)
    ensures exit.Returned? && ctxAtEnd.None? && exit.waited.Received? && exit.waited.reply.StreamReply? ==>
              r == RequestResult(EmptyResponse, Some(exit.waited.reply.stream), None)
    // context done or timeout: the error alone
    ensures exit.Returned? && exit.waited.CtxDone? ==> r == RequestResult(EmptyResponse, None, Some(CtxError(exit.waited.reason)))
    ensures exit.Returned? && exit.waited.TimerFired? && ctxAtEnd.None? ==> r == RequestResult(EmptyResponse, None, Some(TimeoutExpired))
    // the final context check overrides the error, whichever case won, but
    // leaves the response or stream the waiter wrote: a stream can come back
    // together with the context's error
    ensures exit.Returned? && ctxAtEnd.Some? ==> r.err == Some(CtxError(ctxAtEnd.value))
    ensures exit.Returned? ==> r.res == WaiterWrites(exit.waited).res && r.stream == WaiterWrites(exit.waited).stream
    // a handler panic is captured, never propagated
    ensures exit.Panicked? && exit.value.StringPanic? ==> r.err == Some(Message(exit.value.text))
    ensures exit.Panicked? && exit.value.ErrorPanic? ==> r.err == Some(exit.value.err)
    ensures exit.Panicked? && exit.value.OtherPanic? ==>
              r.err == (if exit.waitedSoFar.Some? then WaiterWrites(exit.waitedSoFar.value).err else None)
    // the recovery keeps whatever the waiter had already written
    ensures exit.Panicked? && exit.waitedSoFar.Some? ==>
              r.res == WaiterWrites(exit.waitedSoFar.value).res && r.stream == WaiterWrites(exit.waitedSoFar.value).stream
    ensures exit.Panicked? && exit.waitedSoFar.None? ==> r.res == EmptyResponse && r.stream.None?
    // a result never carries both a response and a stream
    ensures r.stream.Some? ==> r.res == EmptyResponse
  {
    match exit
    case Returned(w) =>
      var fields := WaiterWrites(w);
      if ctxAtEnd.Some? then fields.(err := Some(CtxError(ctxAtEnd.value))) else fields
    case Panicked(v, soFar) =>
      var fields := if soFar.Some? then WaiterWrites(soFar.value) else NoResult;
      fields.(err := Recovered(v, fields.err))
  }

  /** The caller sees no error exactly when a reply arrived and the context
      was still live, or when the handler panicked with a value that is
      neither a string nor an error before anything but a reply was seen. */
  lemma NoErrorExactly(exit: HandlerExit, ctxAtEnd: Option<CtxErr>)
    requires exit.Returned? && exit.waited.CtxDone? ==> ctxAtEnd == Some(exit.waited.reason)
    ensures SendRequest2(exit, ctxAtEnd).err.None? <==>
      || (exit.Returned? && exit.waited.Received? && ctxAtEnd.None?)
      || (exit.Panicked? && exit.value.OtherPanic? && (exit.waitedSoFar.None? || exit.waitedSoFar.value.Received?))
  {
    match exit
    case Returned(w) =>
    case Panicked(v, soFar) =>
      if soFar.Some? {
        var fields := WaiterWrites(soFar.value);
        assert fields.err.None? <==> soFar.value.Received?;
      }
  }
}

=== FILE: channel_sender.dfy ===
/** The reply token (`channelSender`) a handler receives with each request:
    a one-slot channel that the first reply fills and then closes.  A second
    reply sends on the closed channel, which is a runtime panic.  The two ways
    to reply are `SendResponse` (one buffered response) and
    `SendParallelResponse2` (hand over a fresh sectioned-result producer).
 */
module ChannelSender {
  import opened Common
  import opened ResultSender

  /** What travels through the token's channel. */
  datatype Reply = ResponseReply(response: Response) | StreamReply(stream: Producer)

  /** `Fresh`: the channel is empty and open.  `Used(v)`: `v` was sent and
      the channel closed; `v` stays readable for the waiting caller. */
  datatype Token = Fresh | Used(reply: Reply)

  /** The untyped `sender` argument of the bus: the token the bus created for
      this request, or anything else a handler passes by mistake. */
  datatype SenderArg = ChannelSender(token: Token) | Foreign

  /** `channelSender.send`: `s.c <- value; close(s.c)`. */
  function Send(t: Token, v: Reply): (r: Exec<Token, ()>)
    ensures r.Ok? <==> t.Fresh?
    ensures r.Ok? ==> r.state == Used(v)
    ensures r.Fatal? ==> r.reason == SendOnClosedChannel
  {
    match t
    case Fresh => Ok(Used(v), ())
    case Used(_) => Fatal(SendOnClosedChannel)
  }

  /** The waiting caller's receive `<-s.c`: ready with the sent value once
      the token was used, not ready before. */
  function Receive(t: Token): (r: Option<Reply>)
    ensures r.None? <==> t.Fresh?
    ensures r.Some? ==> t == Used(r.value)
  {
    match t
    case Fresh => None
    case Used(v) => Some(v)
  }

  /** `SendResponse`: the type assertion on `sender`, then a send. */
  function SendResponse(sender: SenderArg, response: Response): (r: Exec<Token, ()>)
    ensures sender.Foreign? ==> r == Fatal(WrongSender)
    ensures sender.ChannelSender? ==> (r.Ok? <==> sender.token.Fresh?)
    ensures r.Ok? ==> Receive(r.state) == Some(ResponseReply(response))
    ensures sender.ChannelSender? && r.Fatal? ==> r.reason == SendOnClosedChannel
  {
    match sender
    case Foreign => Fatal(WrongSender)
    case ChannelSender(t) => Send(t, ResponseReply(response))
  }

  /** `SendParallelResponse2`: create a fresh producer, send it through the
      token, and return it to the handler for writing. */
  function SendParallelResponse2(sender: SenderArg): (r: Exec<Token, Producer>)
    ensures sender.Foreign? ==> r == Fatal(WrongSender)
    ensures sender.ChannelSender? ==> (r.Ok? <==> sender.token.Fresh?)
    ensures r.Ok? ==> r.ret == Init && Receive(r.state) == Some(StreamReply(r.ret))
    ensures sender.ChannelSender? && r.Fatal? ==> r.reason == SendOnClosedChannel
  {
    match sender
    case Foreign => Fatal(WrongSender)
    case ChannelSender(t) =>
      match Send(t, StreamReply(Init))
      case Ok(t', _) => Ok(t', Init)
      case Fatal(reason) => Fatal(reason)
  }

  /** A token carries at most one reply: after any successful reply, any
      further reply of either kind panics with "send on closed channel". */
  lemma AtMostOneReply(t: Token, first: Reply, second: Reply)
    requires Send(t, first).Ok?
    ensures Send(Send(t, first).state, second) == Fatal(SendOnClosedChannel)
    ensures Receive(Send(t, first).state) == Some(first)
  {
  }

  /** The same for the two bus operations, in every combination. */
  lemma SecondReplyPanics(t: Token, response1: Response, response2: Response)
    ensures SendResponse(ChannelSender(t), response1).Ok? ==>
      var t' := SendResponse(ChannelSender(t), response1).state;
      SendResponse(ChannelSender(t'), response2) == Fatal(SendOnClosedChannel) &&
      SendParallelResponse2(ChannelSender(t')) == Fatal(SendOnClosedChannel)
    ensures SendParallelResponse2(ChannelSender(t)).Ok? ==>
      var t' := SendParallelResponse2(ChannelSender(t)).state;
      SendResponse(ChannelSender(t'), response2) == Fatal(SendOnClosedChannel) &&
      SendParallelResponse2(ChannelSender(t')) == Fatal(SendOnClosedChannel)
  {
  }
}

=== FILE: common.dfy ===
/** Types shared by every part of the in-memory bus model: byte payloads,
    the error values the bus hands back, the runtime panics it can raise, and
    the outcome of one blocking channel send once the `select` that guards it
    has been resolved.
 */
module Common {

  datatype Option<+T> = None | Some(value: T)

  newtype byte = x: int | 0 <= x < 256

  /** An encoded element value or response payload. */
  type Bytes = seq<byte>

  /** An opaque response payload; only its bytes matter to the bus. */
  datatype Response = Response(data: Bytes)

  /** The zero `Response`, what the caller receives when no response was sent. */
  const EmptyResponse := Response([])

  /** What `ctx.Err()` returns once the caller's context is done. */
  datatype CtxErr = Canceled | DeadlineExceeded

  /** Error values returned by the bus (never panics). */
  datatype Error =
    | CtxError(reason: CtxErr)   // ctx.Err()
    | TimeoutExpired             // ibus.ErrTimeoutExpired: the caller's wait timed out
    | NoConsumer                 // ibus.ErrNoConsumer: a stream send timed out
    | MarshalError               // the value encoder refused an element value
    | Message(text: string)      // errors.New(text)
    | RuntimeError(text: string) // a Go runtime error value

  /** The runtime failures (Go panics) that the bus can raise. */
  datatype PanicReason =
    | SendOnClosedChannel  // a reply token used twice, or a send after Close
    | CloseOfClosedChannel // Close twice, or a section started after Close
    | SectionNotStarted    // an element sent before any section was started
    | WrongSender          // the sender argument is not the bus's reply token

  /** The result of one operation: the new state and a return value, or a panic. */
  datatype Exec<+S, +R> = Ok(state: S, ret: R) | Fatal(reason: PanicReason)

  /** Which case of a blocking send's `select` fired: the receiver took the
      value, the caller's context was done, or the per-stream timer expired. */
  datatype SendOutcome = Accepted | Cancelled(reason: CtxErr) | TimedOut

  /** What a blocking send achieved. */
  datatype SendResult = Handed | Refused(err: Error) | ClosedChannelPanic

  /** The `select { case ch <- v: … case <-ctx.Done(): … case <-time.After(t): … }`
      of a stream send.  A closed channel makes its send case ready at once, so
      only a context that is already done can win over the panic; the timer
      case never can. */
  function SelectSend(chanClosed: bool, o: SendOutcome): (r: SendResult)
    ensures r.Handed? <==> !chanClosed && o.Accepted?
    ensures r.ClosedChannelPanic? <==> chanClosed && !o.Cancelled?
    ensures r.Refused? ==> (o.Cancelled? && r.err == CtxError(o.reason)) || (!chanClosed && o.TimedOut? && r.err == NoConsumer)
  {
    if chanClosed then
      if o.Cancelled? then Refused(CtxError(o.reason)) else ClosedChannelPanic
    else
      match o
      case Accepted => Handed
      case Cancelled(reason) => Refused(CtxError(reason))
      case TimedOut => Refused(NoConsumer)
  }
}

=== FILE: result_sender.dfy ===
/** The producer side of a sectioned result (`resultSenderClosable`).

    Starting a section hands nothing to the consumer: the section waits as
    `current` until the first element that survives the nil check and the
    encoder; only then is the section sent, and after it the element.  A send
    that fails leaves the pending section where it was, so the next element
    tries again.
 */
module ResultSender {
  import opened Common
  import opened StreamLog

  /** The element channel of the most recently started section. */
  datatype ElemChan = NoChan | OpenChan | ClosedChan

  datatype Producer = Producer(
    current: Option<Section>,  // started, not yet handed to the consumer
    elems: ElemChan,           // NoChan until the first section is started
    sectionsClosed: bool,      // the section channel is closed (Close was called)
    errSlot: Option<Error>,    // the completion error the consumer reads after draining
    log: seq<Observed>)        // what the consumer has received

  /** A fresh producer, as `SendParallelResponse2` creates it. */
  const Init := Producer(None, NoChan, false, None, [])

  /** An invariant of every state reachable from `Init` (it also admits some
      states no call sequence reaches).  When no section is pending and the
      element channel is open, that channel belongs to the last observed
      section. */
  predicate Valid(p: Producer) {
    && (p.elems == NoChan ==> p.current.None? && |p.log| == 0)
    && (p.current.None? && p.elems == OpenChan ==> |p.log| > 0)
    && (p.elems == ClosedChan ==> p.sectionsClosed)
    && (p.sectionsClosed && p.elems == OpenChan ==> p.current.Some?)
  }

  /** Whether the element sequence of observed section `i` is closed: a later
      section was started, or the stream was closed.  Only the last observed
      section can still be open. */
  predicate ElementsClosed(p: Producer, i: nat)
    requires i < |p.log|
  {
    i + 1 < |p.log| || p.current.Some? || p.elems != OpenChan
  }

  /** The section still owed to the consumer, as an event. */
  function Pending(p: Producer): seq<Event> {
    if p.current.Some? then [SectionEvent(p.current.value)] else []
  }

  /** Everything the consumer has observed, followed by the pending section. */
  function Visible(p: Producer): seq<Event> {
    Events(p.log) + Pending(p)
  }

  /** How a later state relates to an earlier one from the consumer's side:
      observed sections keep their metadata and only gain elements, a closed
      element sequence never changes again, and a closed stream never
      changes at all. */
  predicate Grows(p: Producer, q: Producer) {
    && |p.log| <= |q.log|
    && (forall i :: 0 <= i < |p.log| ==>
          q.log[i].section == p.log[i].section && p.log[i].elements <= q.log[i].elements)
    && (forall i :: 0 <= i < |p.log| && ElementsClosed(p, i) ==>
          ElementsClosed(q, i) && q.log[i] == p.log[i])
    && (p.sectionsClosed ==> q.sectionsClosed && q.log == p.log)
  }

  /** `updateElemsChannel` followed by the assignment to `currentSection`:
      the previous element channel is closed (a panic if `Close` already
      closed it), a fresh one is opened, and the new section becomes pending.
      Nothing is sent. */
  function BeginSection(p: Producer, s: Section): (r: Exec<Producer, ()>)
    requires Valid(p)
    ensures r.Fatal? <==> p.elems == ClosedChan
    ensures r.Fatal? ==> r.reason == CloseOfClosedChannel
    ensures r.Ok? ==> Valid(r.state) && Grows(p, r.state)
    ensures r.Ok? ==> r.state.log == p.log && r.state.current == Some(s)
    ensures r.Ok? ==> forall i :: 0 <= i < |r.state.log| ==> ElementsClosed(r.state, i)
    ensures r.Ok? ==> Visible(r.state) == Events(p.log) + [SectionEvent(s)]
    ensures r.Ok? ==> r.state.sectionsClosed == p.sectionsClosed && r.state.errSlot == p.errSlot
  {
    if p.elems == ClosedChan then Fatal(CloseOfClosedChannel)
    else Ok(p.(elems := OpenChan, current := Some(s)), ())
  }

  function StartArraySection(p: Producer, sectionType: string, path: seq<string>): (r: Exec<Producer, ()>)
    requires Valid(p)
    ensures r.Ok? <==> p.elems != ClosedChan
    ensures r.Ok? ==> Valid(r.state) && Grows(p, r.state)
    ensures r.Ok? ==> r.state.log == p.log && r.state.current == Some(Section(ArrayKind, sectionType, path))
  {
    BeginSection(p, Section(ArrayKind, sectionType, path))
  }

  function StartMapSection(p: Producer, sectionType: string, path: seq<string>): (r: Exec<Producer, ()>)
    requires Valid(p)
    ensures r.Ok? <==> p.elems != ClosedChan
    ensures r.Ok? ==> Valid(r.state) && Grows(p, r.state)
    ensures r.Ok? ==> r.state.log == p.log && r.state.current == Some(Section(MapKind, sectionType, path))
  {
    BeginSection(p, Section(MapKind, sectionType, path))
  }

  /** An element value as the handler passes it: the nil interface, a byte
      slice that is sent unchanged, or any other value, which carries what the
      encoder (`json.Marshal`) makes of it — bytes, or a refusal. */
  datatype Value = Nil | Raw(bytes: Bytes) | Structured(marshalled: Option<Bytes>)

  function Encode(v: Value): (r: Option<Bytes>)
    requires !v.Nil?
    ensures v.Raw? ==> r == Some(v.bytes)
  {
    match v
    case Raw(bytes) => Some(bytes)
    case Structured(m) => m
  }

  /** The elements a `SendElement(name, v)` tries to hand over. */
  function ElementAttempt(name: string, v: Value): seq<Event> {
    if v.Nil? || Encode(v).None? then [] else [ElementEvent(Element(name, Encode(v).value))]
  }

  /** `tryToSendSection`: hand the pending section, if any, to the consumer. */
  function TrySendSection(p: Producer, o: SendOutcome): (r: Exec<Producer, Option<Error>>)
    requires Valid(p)
    ensures p.current.None? ==> r == Ok(p, None)
    ensures r.Ok? && r.ret.Some? ==> r.state == p
    ensures r.Ok? && r.ret.None? ==> r.state.current.None? && Events(r.state.log) == Visible(p)
    ensures r.Ok? && r.ret.None? && p.current.Some? ==> r.state.log == p.log + [Observed(p.current.value, [])]
    ensures r.Ok? && r.ret.Some? ==> r.ret.value == NoConsumer || (o.Cancelled? && r.ret.value == CtxError(o.reason))
    ensures r.Fatal? <==> p.current.Some? && p.sectionsClosed && !o.Cancelled?
    ensures r.Fatal? ==> r.reason == SendOnClosedChannel
    // which outcome gives which result, for a pending section
    ensures p.current.Some? && o.Cancelled? ==> r == Ok(p, Some(CtxError(o.reason)))
    ensures p.current.Some? && !p.sectionsClosed && o.TimedOut? ==> r == Ok(p, Some(NoConsumer))
    ensures p.current.Some? && !p.sectionsClosed && o.Accepted? ==> r.Ok? && r.ret.None?
    ensures r.Ok? ==> Valid(r.state) && Grows(p, r.state) && r.state.elems == p.elems
    ensures r.Ok? ==> r.state.sectionsClosed == p.sectionsClosed && r.state.errSlot == p.errSlot
  {
    if p.current.None? then Ok(p, None)
    else
      match SelectSend(p.sectionsClosed, o)
      case Handed =>
        EventsOfNewSection(p.log, p.current.value);
        DeliverGrows(p);
        Ok(p.(current := None, log := p.log + [Observed(p.current.value, [])]), None)
      case Refused(err) => Ok(p, Some(err))
      case ClosedChannelPanic => Fatal(SendOnClosedChannel)
  }

  /** Handing the pending section over keeps `Valid` and only
      extends what the consumer has observed. */
  lemma DeliverGrows(p: Producer)
    requires Valid(p) && p.current.Some? && !p.sectionsClosed
    ensures var q := p.(current := None, log := p.log + [Observed(p.current.value, [])]);
            Valid(q) && Grows(p, q)
  {
    var q := p.(current := None, log := p.log + [Observed(p.current.value, [])]);
    forall i | 0 <= i < |p.log|
      ensures q.log[i] == p.log[i]
    {
    }
  }

  /** `tryToSendElement`: hand one element to the consumer on the current
      element channel, which by now belongs to the last observed section. */
  function TrySendElement(p: Producer, e: Element, o: SendOutcome): (r: Exec<Producer, Option<Error>>)
    requires Valid(p) && p.current.None? && p.elems != NoChan
    ensures r.Ok? && r.ret.None? ==> p.elems == OpenChan && |p.log| > 0
    ensures r.Ok? && r.ret.None? ==> r.state.log == AppendToLast(p.log, e)
    ensures r.Ok? && r.ret.None? ==> Events(r.state.log) == Events(p.log) + [ElementEvent(e)]
    ensures r.Ok? && r.ret.Some? ==> r.state == p
    ensures r.Ok? && r.ret.Some? ==> r.ret.value == NoConsumer || (o.Cancelled? && r.ret.value == CtxError(o.reason))
    ensures r.Fatal? <==> p.elems == ClosedChan && !o.Cancelled?
    ensures r.Fatal? ==> r.reason == SendOnClosedChannel
    // which outcome gives which result
    ensures o.Cancelled? ==> r == Ok(p, Some(CtxError(o.reason)))
    ensures p.elems == OpenChan && o.TimedOut? ==> r == Ok(p, Some(NoConsumer))
    ensures p.elems == OpenChan && o.Accepted? ==> r.Ok? && r.ret.None?
    ensures r.Ok? ==> Valid(r.state) && Grows(p, r.state)
    ensures r.Ok? ==> r.state.current == p.current && r.state.elems == p.elems
    ensures r.Ok? ==> r.state.sectionsClosed == p.sectionsClosed && r.state.errSlot == p.errSlot
  {
    match SelectSend(p.elems == ClosedChan, o)
    case Handed =>
      EventsOfAppendToLast(p.log, e);
      AppendToLastGrows(p, e);
      Ok(p.(log := AppendToLast(p.log, e)), None)
    case Refused(err) => Ok(p, Some(err))
    case ClosedChannelPanic => Fatal(SendOnClosedChannel)
  }

  lemma AppendToLastGrows(p: Producer, e: Element)
    requires Valid(p) && p.current.None? && p.elems == OpenChan
    ensures Grows(p, p.(log := AppendToLast(p.log, e)))
  {
    var q := p.(log := AppendToLast(p.log, e));
    var n := |p.log|;
    forall i | 0 <= i < n
      ensures q.log[i].section == p.log[i].section && p.log[i].elements <= q.log[i].elements
    {
      if i < n - 1 {
        assert q.log[i] == q.log[..n - 1][i] == p.log[..n - 1][i] == p.log[i];
      }
    }
    forall i | 0 <= i < n && ElementsClosed(p, i)
      ensures ElementsClosed(q, i) && q.log[i] == p.log[i]
    {
      assert q.log[i] == q.log[..n - 1][i] == p.log[..n - 1][i] == p.log[i];
    }
  }

  lemma GrowsTransitive(p: Producer, q: Producer, s: Producer)
    requires Grows(p, q) && Grows(q, s)
    ensures Grows(p, s)
  {
    forall i | 0 <= i < |p.log|
      ensures s.log[i].section == p.log[i].section && p.log[i].elements <= s.log[i].elements
    {
      assert p.log[i].elements <= q.log[i].elements <= s.log[i].elements;
    }
  }

  /** The second half of `SendElement`, once the value is encoded: send the
      pending section if there is one, and only if that succeeded, the
      element. */
  function SendEncoded(p: Producer, e: Element, sectionSend: SendOutcome, elementSend: SendOutcome)
    : (r: Exec<Producer, Option<Error>>)
    requires Valid(p) && p.elems != NoChan
    ensures r.Fatal? ==> p.sectionsClosed && r.reason == SendOnClosedChannel
    ensures r.Ok? && r.ret.None? ==> r.state.current.None? && Events(r.state.log) == Visible(p) + [ElementEvent(e)]
    ensures r.Ok? && r.ret.Some? ==> Visible(r.state) == Visible(p)
    ensures r.Ok? ==> Valid(r.state) && Grows(p, r.state)
    ensures r.Ok? ==> r.state.sectionsClosed == p.sectionsClosed && r.state.errSlot == p.errSlot
  {
    match TrySendSection(p, sectionSend)
    case Fatal(reason) => Fatal(reason)
    case Ok(p1, Some(err)) => Ok(p1, Some(err))
    case Ok(p1, None) =>
      var r := TrySendElement(p1, e, elementSend);
      if r.Ok? then
        GrowsTransitive(p, p1, r.state);
        assert Visible(p1) == Events(p1.log);
        r
      else r
  }

  /** A pending section that gets through arrives together with the
      element: one new observed section holding just that element. */
  lemma DeliveredWithElement(p: Producer, e: Element, sectionSend: SendOutcome, elementSend: SendOutcome)
    requires Valid(p) && p.current.Some? && p.elems != NoChan
    ensures var r := SendEncoded(p, e, sectionSend, elementSend);
            r.Ok? && r.ret.None? ==> r.state.log == p.log + [Observed(p.current.value, [e])]
  {
    var o := Observed(p.current.value, []);
    AppendToLastOfSnoc(p.log, o, e);
    assert o.elements + [e] == [e];
  }

  /** `SendElement(name, v)`.  `sectionSend` and `elementSend` resolve the
      two blocking sends it may make: the pending section first, then the
      element. */
  function SendElement(p: Producer, name: string, v: Value, sectionSend: SendOutcome, elementSend: SendOutcome)
    : (r: Exec<Producer, Option<Error>>)
    requires Valid(p)
    ensures v.Nil? ==> r == Ok(p, None)
    ensures !v.Nil? && p.elems == NoChan ==> r == Fatal(SectionNotStarted)
    ensures !v.Nil? && p.elems != NoChan && Encode(v).None? ==> r == Ok(p, Some(MarshalError))
    ensures r.Fatal? ==> ((p.elems == NoChan && r.reason == SectionNotStarted)
                          || (p.sectionsClosed && r.reason == SendOnClosedChannel))
    ensures r.Ok? && r.ret.None? && !v.Nil? ==>
              r.state.current.None? && Events(r.state.log) == Visible(p) + ElementAttempt(name, v)
    // a byte slice reaches the consumer exactly as given
    ensures v.Raw? && r.Ok? && r.ret.None? ==> Events(r.state.log) == Visible(p) + [ElementEvent(Element(name, v.bytes))]
    ensures r.Ok? && r.ret.Some? ==> Visible(r.state) == Visible(p)
    // a refused send reports why: a done context or a timer that fired
    ensures r.Ok? && r.ret.Some? && r.ret.value != MarshalError ==>
              || (r.ret.value.CtxError? && (sectionSend == Cancelled(r.ret.value.reason) || elementSend == Cancelled(r.ret.value.reason)))
              || (r.ret.value == NoConsumer && (sectionSend.TimedOut? || elementSend.TimedOut?))
    ensures r.Ok? ==> Valid(r.state) && Grows(p, r.state)
    ensures r.Ok? ==> r.state.sectionsClosed == p.sectionsClosed && r.state.errSlot == p.errSlot
  {
    if v.Nil? then Ok(p, None)
    else if p.elems == NoChan then Fatal(SectionNotStarted)
    else
      match Encode(v)
      case None => Ok(p, Some(MarshalError))
      case Some(bb) => SendEncoded(p, Element(name, bb), sectionSend, elementSend)
  }

  /** When the consumer takes every send, an element for an already
      delivered section is appended to that section. */
  lemma AcceptedElementAppends(p: Producer, name: string, v: Value)
    requires Valid(p) && p.current.None? && p.elems == OpenChan && !v.Nil? && Encode(v).Some?
    ensures SendElement(p, name, v, Accepted, Accepted)
            == Ok(p.(log := AppendToLast(p.log, Element(name, Encode(v).value))), None)
  {
    var e := Element(name, Encode(v).value);
    assert TrySendSection(p, Accepted) == Ok(p, None);
    assert TrySendElement(p, e, Accepted) == Ok(p.(log := AppendToLast(p.log, e)), None);
  }

  /** An element the consumer does not take in time, for a section it
      already has, changes nothing and reports ErrNoConsumer. */
  lemma UntakenElementChangesNothing(p: Producer, name: string, v: Value, sectionSend: SendOutcome)
    requires Valid(p) && p.current.None? && p.elems == OpenChan && !v.Nil? && Encode(v).Some?
    ensures SendElement(p, name, v, sectionSend, TimedOut) == Ok(p, Some(NoConsumer))
  {
    var e := Element(name, Encode(v).value);
    assert TrySendSection(p, sectionSend) == Ok(p, None);
    assert TrySendElement(p, e, TimedOut) == Ok(p, Some(NoConsumer));
  }

  /** A pending section the consumer does not take: the element is not
      sent, nothing changes, and the section stays pending for the next
      element.  The error is the context's, or ErrNoConsumer on timeout. */
  lemma RefusedSectionChangesNothing(p: Producer, name: string, v: Value, sectionSend: SendOutcome, elementSend: SendOutcome)
    requires Valid(p) && p.current.Some? && p.elems != NoChan && !v.Nil? && Encode(v).Some?
    requires !sectionSend.Accepted? && (p.sectionsClosed ==> sectionSend.Cancelled?)
    ensures SendElement(p, name, v, sectionSend, elementSend)
            == Ok(p, Some(if sectionSend.Cancelled? then CtxError(sectionSend.reason) else NoConsumer))
  {
    var err := if sectionSend.Cancelled? then CtxError(sectionSend.reason) else NoConsumer;
    assert TrySendSection(p, sectionSend) == Ok(p, Some(err));
  }

  /** An element send that is refused after the pending section (if any)
      got through: the section stays delivered, the element is not sent, and
      the error is the context's, or ErrNoConsumer on timeout. */
  lemma RefusedElementKeepsSection(p: Producer, name: string, v: Value, sectionSend: SendOutcome, elementSend: SendOutcome)
    requires Valid(p) && p.elems != NoChan && !v.Nil? && Encode(v).Some? && !elementSend.Accepted?
    requires p.current.Some? ==> sectionSend.Accepted? && !p.sectionsClosed
    requires elementSend.TimedOut? ==> p.elems == OpenChan
    ensures SendElement(p, name, v, sectionSend, elementSend)
            == Ok(if p.current.Some? then p.(current := None, log := p.log + [Observed(p.current.value, [])]) else p,
                  Some(if elementSend.Cancelled? then CtxError(elementSend.reason) else NoConsumer))
  {
    var p1 := if p.current.Some? then p.(current := None, log := p.log + [Observed(p.current.value, [])]) else p;
    var err := if elementSend.Cancelled? then CtxError(elementSend.reason) else NoConsumer;
    assert TrySendSection(p, sectionSend) == Ok(p1, None);
    assert TrySendElement(p1, Element(name, Encode(v).value), elementSend) == Ok(p1, Some(err));
  }

  /** When the consumer takes every send, the first element for a pending
      section delivers the section, then the element inside it. */
  lemma AcceptedElementDeliversSection(p: Producer, name: string, v: Value)
    requires Valid(p) && p.current.Some? && p.elems == OpenChan && !p.sectionsClosed && !v.Nil? && Encode(v).Some?
    ensures SendElement(p, name, v, Accepted, Accepted)
            == Ok(p.(current := None, log := p.log + [Observed(p.current.value, [Element(name, Encode(v).value)])]), None)
  {
    var e := Element(name, Encode(v).value);
    var p1 := p.(current := None, log := p.log + [Observed(p.current.value, [])]);
    assert TrySendSection(p, Accepted) == Ok(p1, None);
    assert TrySendElement(p1, e, Accepted) == Ok(p1.(log := AppendToLast(p1.log, e)), None);
    DeliveredWithElement(p, e, Accepted, Accepted);
  }

  /** `ObjectSection(type, path, v)`: start an object section and send `v` as
      its element.  A nil or unencodable value leaves the section pending,
      so the consumer does not see it. */
  function ObjectSection(p: Producer, sectionType: string, path: seq<string>, v: Value,
                         sectionSend: SendOutcome, elementSend: SendOutcome)
    : (r: Exec<Producer, Option<Error>>)
    requires Valid(p)
    ensures p.elems == ClosedChan ==> r == Fatal(CloseOfClosedChannel)
    // before `Close` the call never panics
    ensures r.Fatal? ==> p.sectionsClosed
    ensures r.Ok? && (v.Nil? || Encode(v).None?) ==>
              r.state.log == p.log && r.state.current == Some(Section(ObjectKind, sectionType, path))
    ensures r.Ok? && r.ret.None? && !v.Nil? && Encode(v).Some? ==>
              r.state.log == p.log + [Observed(Section(ObjectKind, sectionType, path), [Element("", Encode(v).value)])]
    ensures r.Ok? ==> Valid(r.state) && Grows(p, r.state)
    ensures r.Ok? ==> r.state.sectionsClosed == p.sectionsClosed && r.state.errSlot == p.errSlot
  {
    match BeginSection(p, Section(ObjectKind, sectionType, path))
    case Fatal(reason) => Fatal(reason)
    case Ok(p1, _) =>
      var r := SendElement(p1, "", v, sectionSend, elementSend);
      if r.Ok? then
        GrowsTransitive(p, p1, r.state);
        if r.ret.None? && !v.Nil? && Encode(v).Some? then
          DeliveredWithElement(p1, Element("", Encode(v).value), sectionSend, elementSend);
          r
        else r
      else r
  }

  /** An object section whose value is nil or cannot be encoded sends
      nothing: it stays pending, whatever the send outcomes, so the consumer
      never observes it. */
  lemma UnsentObjectSection(p: Producer, sectionType: string, path: seq<string>, v: Value,
                            sectionSend: SendOutcome, elementSend: SendOutcome)
    requires Valid(p) && p.elems != ClosedChan && (v.Nil? || Encode(v).None?)
    ensures ObjectSection(p, sectionType, path, v, sectionSend, elementSend)
            == Ok(p.(elems := OpenChan, current := Some(Section(ObjectKind, sectionType, path))),
                  if v.Nil? then None else Some(MarshalError))
  {
    var p1 := p.(elems := OpenChan, current := Some(Section(ObjectKind, sectionType, path)));
    assert BeginSection(p, Section(ObjectKind, sectionType, path)) == Ok(p1, ());
  }

  /** When the consumer takes both sends, an object section is observed
      right away, with the encoded value as its only element. */
  lemma AcceptedObjectSection(p: Producer, sectionType: string, path: seq<string>, v: Value)
    requires Valid(p) && p.elems != ClosedChan && !p.sectionsClosed && !v.Nil? && Encode(v).Some?
    ensures ObjectSection(p, sectionType, path, v, Accepted, Accepted)
            == Ok(p.(elems := OpenChan, current := None,
                     log := p.log + [Observed(Section(ObjectKind, sectionType, path), [Element("", Encode(v).value)])]),
                  None)
  {
    var p1 := p.(elems := OpenChan, current := Some(Section(ObjectKind, sectionType, path)));
    assert BeginSection(p, Section(ObjectKind, sectionType, path)) == Ok(p1, ());
    AcceptedElementDeliversSection(p1, "", v);
  }

  /** An object section whose section send is taken but whose element send
      loses to a done context: the section is observed with no element, and
      the context's error is returned. */
  lemma ObjectSectionElementCancelled(p: Producer, sectionType: string, path: seq<string>, v: Value, reason: CtxErr)
    requires Valid(p) && p.elems != ClosedChan && !p.sectionsClosed && !v.Nil? && Encode(v).Some?
    ensures ObjectSection(p, sectionType, path, v, Accepted, Cancelled(reason))
            == Ok(p.(elems := OpenChan, current := None,
                     log := p.log + [Observed(Section(ObjectKind, sectionType, path), [])]),
                  Some(CtxError(reason)))
  {
    var p1 := p.(elems := OpenChan, current := Some(Section(ObjectKind, sectionType, path)));
    assert BeginSection(p, Section(ObjectKind, sectionType, path)) == Ok(p1, ());
    RefusedElementKeepsSection(p1, "", v, Accepted, Cancelled(reason));
  }

  /** What `ObjectSection` does for each pair of send outcomes: it panics
      only on a closed stream, and a refused send returns the error of the
      outcome that refused it.  A section whose send got through stays
      delivered when its element send is refused. */
  lemma ObjectSectionOutcomes(p: Producer, sectionType: string, path: seq<string>, v: Value,
                              sectionSend: SendOutcome, elementSend: SendOutcome)
    requires Valid(p)
    ensures var r := ObjectSection(p, sectionType, path, v, sectionSend, elementSend);
      r.Fatal? <==> p.elems == ClosedChan || (p.sectionsClosed && !v.Nil? && Encode(v).Some? && !sectionSend.Cancelled?)
    ensures var s := Section(ObjectKind, sectionType, path);
      p.elems != ClosedChan && !v.Nil? && Encode(v).Some? && sectionSend.Cancelled? ==>
        ObjectSection(p, sectionType, path, v, sectionSend, elementSend)
        == Ok(p.(elems := OpenChan, current := Some(s)), Some(CtxError(sectionSend.reason)))
    ensures var s := Section(ObjectKind, sectionType, path);
      p.elems != ClosedChan && !p.sectionsClosed && !v.Nil? && Encode(v).Some? && sectionSend.TimedOut? ==>
        ObjectSection(p, sectionType, path, v, sectionSend, elementSend)
        == Ok(p.(elems := OpenChan, current := Some(s)), Some(NoConsumer))
    ensures var s := Section(ObjectKind, sectionType, path);
      p.elems != ClosedChan && !p.sectionsClosed && !v.Nil? && Encode(v).Some? && sectionSend.Accepted? && !elementSend.Accepted? ==>
        ObjectSection(p, sectionType, path, v, sectionSend, elementSend)
        == Ok(p.(elems := OpenChan, current := None, log := p.log + [Observed(s, [])]),
              Some(if elementSend.Cancelled? then CtxError(elementSend.reason) else NoConsumer))
  {
    var s := Section(ObjectKind, sectionType, path);
    if p.elems != ClosedChan {
      var p1 := p.(elems := OpenChan, current := Some(s));
      assert BeginSection(p, s) == Ok(p1, ());
      if !v.Nil? && Encode(v).Some? {
        if sectionSend.Cancelled? || (sectionSend.TimedOut? && !p.sectionsClosed) {
          RefusedSectionChangesNothing(p1, "", v, sectionSend, elementSend);
        } else if !p.sectionsClosed && !elementSend.Accepted? {
          RefusedElementKeepsSection(p1, "", v, sectionSend, elementSend);
        }
      }
    }
  }

  /** `Close(err)`: record a non-nil `err` in the completion slot, close the
      section channel and the current element channel.  Closing twice panics. */
  function Close(p: Producer, err: Option<Error>): (r: Exec<Producer, ()>)
    requires Valid(p)
    ensures r.Fatal? <==> p.sectionsClosed
    ensures r.Fatal? ==> r.reason == CloseOfClosedChannel
    ensures r.Ok? ==> r.state.errSlot == (if err.Some? then err else p.errSlot)
    ensures r.Ok? ==> r.state.sectionsClosed && r.state.log == p.log && r.state.current == p.current
    ensures r.Ok? ==> forall i :: 0 <= i < |r.state.log| ==> ElementsClosed(r.state, i)
    ensures r.Ok? ==> Valid(r.state) && Grows(p, r.state) && Visible(r.state) == Visible(p)
  {
    if p.sectionsClosed then Fatal(CloseOfClosedChannel)
    else
      Ok(p.(errSlot := if err.Some? then err else p.errSlot,
            sectionsClosed := true,
            elems := if p.elems == OpenChan then ClosedChan else p.elems), ())
  }

  /** After `Close`, a second `Close` panics, and so does starting a section
      once any section had been started (its element channel is closed);
      with no section ever started there is no element channel to close, and
      the start goes through. */
  lemma AfterClose(p: Producer, err: Option<Error>, err2: Option<Error>, s: Section)
    requires Valid(p) && Close(p, err).Ok?
    ensures Close(Close(p, err).state, err2) == Fatal(CloseOfClosedChannel)
    ensures p.elems != NoChan ==> BeginSection(Close(p, err).state, s) == Fatal(CloseOfClosedChannel)
    ensures p.elems == NoChan ==> BeginSection(Close(p, err).state, s).Ok?
  {
  }
}

=== FILE: scenarios.dfy ===
/** The bus's documented usage scenarios, replayed on the model with every
    blocking send's outcome spelled out. */
module Scenarios {
  import opened Common
  import opened StreamLog
  import opened ResultSender
  import opened SectionViews
  import opened ChannelSender
  import opened Bus

  /** A handler that answers with one response: the caller gets exactly that
      response, no stream and no error. */
  lemma SingleResponse(data: Bytes)
    ensures var sent := SendResponse(ChannelSender(Fresh), Response(data));
            && sent.Ok?
            && Receive(sent.state) == Some(ResponseReply(Response(data)))
            && SendRequest2(Returned(Received(ResponseReply(Response(data)))), None)
               == RequestResult(Response(data), None, None)
  {
  }

  /** A handler that upgrades to a stream: the caller gets the fresh
      producer, an empty response and no error. */
  lemma StreamResponse()
    ensures var sent := SendParallelResponse2(ChannelSender(Fresh));
            && sent.Ok?
            && SendRequest2(Returned(Received(Receive(sent.state).value)), None)
               == RequestResult(EmptyResponse, Some(Init), None)
  {
  }

  /** The caller's timeout, a context cancelled before the call, and handler
      panics with a string or an error. */
  lemma CallerSideFailures(e: Error)
    ensures SendRequest2(Returned(TimerFired), None) == RequestResult(EmptyResponse, None, Some(TimeoutExpired))
    ensures SendRequest2(Returned(CtxDone(Canceled)), Some(Canceled)) == RequestResult(EmptyResponse, None, Some(CtxError(Canceled)))
    ensures SendRequest2(Panicked(StringPanic("boom"), None), None) == RequestResult(EmptyResponse, None, Some(Message("boom")))
    ensures SendRequest2(Panicked(ErrorPanic(e), None), None) == RequestResult(EmptyResponse, None, Some(e))
  {
  }

  /** A reply that wins the race against a context cancelled at the same
      moment is still reported as cancelled, by the final check. */
  lemma CancelOverridesReply(data: Bytes)
    ensures SendRequest2(Returned(Received(ResponseReply(Response(data)))), Some(Canceled)).err == Some(CtxError(Canceled))
  {
  }

  /** A handler that sends on its token twice without recovering: the
      second send's runtime panic becomes the caller's error.  Whether the
      waiter took the first reply before the panic is a race; either way the
      error is the runtime's, and only the response differs. */
  lemma HandlerReusingTokenFails(data: Bytes)
    ensures var first := SendResponse(ChannelSender(Fresh), Response(data));
            && first.Ok?
            && var second := SendResponse(ChannelSender(first.state), Response(data));
            && second == Fatal(SendOnClosedChannel)
            && SendRequest2(Panicked(PanicValueOf(second.reason), Some(Received(ResponseReply(Response(data))))), None)
               == RequestResult(Response(data), None, Some(RuntimeError("send on closed channel")))
            && SendRequest2(Panicked(PanicValueOf(second.reason), None), None)
               == RequestResult(EmptyResponse, None, Some(RuntimeError("send on closed channel")))
  {
  }

  /** The sectioned-result scenario, first part: an array section with two
      elements, every send taken by the consumer.  Starting it on a fresh
      producer opens the element channel; the section reaches the consumer
      with the first element, after whatever sections `pre` came before. */
  lemma SectionedResultArray(pre: seq<Observed>, e1: Bytes, e2: Bytes)
    ensures StartArraySection(Init, "array", ["array-path"])
            == Ok(Producer(Some(Section(ArrayKind, "array", ["array-path"])), OpenChan, false, None, []), ())
    ensures var a := Section(ArrayKind, "array", ["array-path"]);
      var p1 := Producer(Some(a), OpenChan, false, None, pre);
      var p2 := Producer(None, OpenChan, false, None, pre + [Observed(a, [Element("", e1)])]);
      && SendElement(p1, "", Structured(Some(e1)), Accepted, Accepted) == Ok(p2, None)
      && SendElement(p2, "", Structured(Some(e2)), Accepted, Accepted)
         == Ok(Producer(None, OpenChan, false, None, pre + [Observed(a, [Element("", e1), Element("", e2)])]), None)
  {
    var a := Section(ArrayKind, "array", ["array-path"]);
    var p1 := Producer(Some(a), OpenChan, false, None, pre);
    var p2 := Producer(None, OpenChan, false, None, pre + [Observed(a, [Element("", e1)])]);
    AcceptedElementDeliversSection(p1, "", Structured(Some(e1)));
    AcceptedElementAppends(p2, "", Structured(Some(e2)));
    AppendToLastOfSnoc(pre, Observed(a, [Element("", e1)]), Element("", e2));
    assert [Element("", e1)] + [Element("", e2)] == [Element("", e1), Element("", e2)];
  }

  /** Second part: after earlier sections `pre`, a map section with two
      named elements. */
  lemma SectionedResultMap(pre: seq<Observed>, v1: Bytes, v2: Bytes)
    requires |pre| > 0
    ensures var m := Section(MapKind, "map", ["map-path"]);
      var p := Producer(None, OpenChan, false, None, pre);
      var p1 := Producer(Some(m), OpenChan, false, None, pre);
      var p2 := Producer(None, OpenChan, false, None, pre + [Observed(m, [Element("key1", v1)])]);
      && StartMapSection(p, "map", ["map-path"]) == Ok(p1, ())
      && SendElement(p1, "key1", Structured(Some(v1)), Accepted, Accepted) == Ok(p2, None)
      && SendElement(p2, "key2", Structured(Some(v2)), Accepted, Accepted)
         == Ok(Producer(None, OpenChan, false, None, pre + [Observed(m, [Element("key1", v1), Element("key2", v2)])]), None)
  {
    var m := Section(MapKind, "map", ["map-path"]);
    var p1 := Producer(Some(m), OpenChan, false, None, pre);
    var p2 := Producer(None, OpenChan, false, None, pre + [Observed(m, [Element("key1", v1)])]);
    AcceptedElementDeliversSection(p1, "key1", Structured(Some(v1)));
    AcceptedElementAppends(p2, "key2", Structured(Some(v2)));
    AppendToLastOfSnoc(pre, Observed(m, [Element("key1", v1)]), Element("key2", v2));
    assert [Element("key1", v1)] + [Element("key2", v2)] == [Element("key1", v1), Element("key2", v2)];
  }

  /** Third part: an object section, then `Close` with an error. */
  lemma SectionedResultObjectAndClose(pre: seq<Observed>, obj: Bytes, testErr: Error)
    requires |pre| > 0
    ensures var o := Section(ObjectKind, "object", ["object-path"]);
      var p := Producer(None, OpenChan, false, None, pre);
      var done := pre + [Observed(o, [Element("", obj)])];
      && ObjectSection(p, "object", ["object-path"], Structured(Some(obj)), Accepted, Accepted)
         == Ok(Producer(None, OpenChan, false, None, done), None)
      && Close(Producer(None, OpenChan, false, None, done), Some(testErr))
         == Ok(Producer(None, ClosedChan, true, Some(testErr), done), ())
  {
    var o := Section(ObjectKind, "object", ["object-path"]);
    var p := Producer(None, OpenChan, false, None, pre);
    var begun := Producer(Some(o), OpenChan, false, None, pre);
    assert BeginSection(p, o) == Ok(begun, ());
    AcceptedElementDeliversSection(begun, "", Structured(Some(obj)));
  }

  /** What the consumer reads at the end of the scenario: the three sections
      in order, the array and map elements in order followed by the end, the
      object's value, the end of the section channel, and the error. */
  lemma SectionedResultConsumer(e1: Bytes, e2: Bytes, v1: Bytes, v2: Bytes, obj: Bytes, testErr: Error)
    ensures var q := Producer(None, ClosedChan, true, Some(testErr),
              [Observed(Section(ArrayKind, "array", ["array-path"]), [Element("", e1), Element("", e2)]),
               Observed(Section(MapKind, "map", ["map-path"]), [Element("key1", v1), Element("key2", v2)]),
               Observed(Section(ObjectKind, "object", ["object-path"]), [Element("", obj)])]);
      && NextSection(q, 0) == Item(Section(ArrayKind, "array", ["array-path"]))
      && ArrayNext(q, 0, 0) == Item(e1) && ArrayNext(q, 0, 1) == Item(e2) && ArrayNext(q, 0, 2) == End
      && NextSection(q, 1) == Item(Section(MapKind, "map", ["map-path"]))
      && MapNext(q, 1, 0) == Item(Element("key1", v1)) && MapNext(q, 1, 1) == Item(Element("key2", v2))
      && MapNext(q, 1, 2) == End
      && NextSection(q, 2) == Item(Section(ObjectKind, "object", ["object-path"]))
      && ObjectValue(q, 2, false) == Item(Some(obj))
      && NextSection(q, 3) == End
      && q.errSlot == Some(testErr)
  {
  }

  /** No consumer takes the object section in time: `ObjectSection` reports
      ErrNoConsumer, and after `Close(nil)` the consumer finds the section
      channel closed with nothing on it and no completion error. */
  lemma ObjectSectionWithoutConsumer(b: Bytes)
    ensures var r := ObjectSection(Init, "", [], Raw(b), TimedOut, Accepted);
            && r == Ok(Producer(Some(Section(ObjectKind, "", [])), OpenChan, false, None, []), Some(NoConsumer))
            && var c := Close(r.state, None);
            && c.Ok? && NextSection(c.state, 0) == End && c.state.errSlot.None?
  {
    var p1 := Producer(Some(Section(ObjectKind, "", [])), OpenChan, false, None, []);
    assert BeginSection(Init, Section(ObjectKind, "", [])) == Ok(p1, ());
    assert TrySendSection(p1, TimedOut) == Ok(p1, Some(NoConsumer));
  }

  /** The context is cancelled while the object section's own send waits:
      `ObjectSection` returns the context's error, and the section stays
      pending, unseen by the consumer. */
  lemma ObjectSectionCancelledOnSection(b: Bytes, elementSend: SendOutcome)
    ensures var o := Section(ObjectKind, "", []);
      ObjectSection(Init, "", [], Raw(b), Cancelled(Canceled), elementSend)
      == Ok(Producer(Some(o), OpenChan, false, None, []), Some(CtxError(Canceled)))
  {
    ObjectSectionOutcomes(Init, "", [], Raw(b), Cancelled(Canceled), elementSend);
  }

  /** The section gets through but its element send loses to the context:
      `ObjectSection` still returns the context's error.  The consumer
      receives the section, and after `Close` its `Value` is nil. */
  lemma ObjectSectionCancelledOnElement(sectionType: string, path: seq<string>, b: Bytes)
    ensures var o := Section(ObjectKind, sectionType, path);
      var q := Producer(None, OpenChan, false, None, [Observed(o, [])]);
      && ObjectSection(Init, sectionType, path, Raw(b), Accepted, Cancelled(Canceled)) == Ok(q, Some(CtxError(Canceled)))
      && NextSection(q, 0) == Item(o)
      && Close(q, None) == Ok(q.(elems := ClosedChan, sectionsClosed := true), ())
      && ObjectValue(q.(elems := ClosedChan, sectionsClosed := true), 0, false) == Item(None)
  {
    var o := Section(ObjectKind, sectionType, path);
    ObjectSectionElementCancelled(Init, sectionType, path, Raw(b), Canceled);
    assert Init.log + [Observed(o, [])] == [Observed(o, [])];
    EmptySectionReadsNilAfterClose(o);
  }

  /** A delivered section that never got an element: once the stream is
      closed, its `Value` is nil. */
  lemma EmptySectionReadsNilAfterClose(o: Section)
    ensures var q := Producer(None, OpenChan, false, None, [Observed(o, [])]);
      && Close(q, None) == Ok(q.(elems := ClosedChan, sectionsClosed := true), ())
      && ObjectValue(q.(elems := ClosedChan, sectionsClosed := true), 0, false) == Item(None)
  {
  }

  /** A nil value: no error, and the object section is never observed. */
  lemma NilObjectSectionUnsent()
    ensures var r := ObjectSection(Init, "", [], Nil, Accepted, Accepted);
            && r.Ok? && r.ret.None?
            && var c := Close(r.state, None);
            && c.Ok? && NextSection(c.state, 0) == End
  {
    UnsentObjectSection(Init, "", [], Nil, Accepted, Accepted);
  }

  /** A value the encoder refuses: the encoder's error, and the object
      section is never observed. */
  lemma UnencodableObjectSectionUnsent()
    ensures var r := ObjectSection(Init, "", [], Structured(None), Accepted, Accepted);
            && r.Ok? && r.ret == Some(MarshalError)
            && var c := Close(r.state, None);
            && c.Ok? && NextSection(c.state, 0) == End
  {
    UnsentObjectSection(Init, "", [], Structured(None), Accepted, Accepted);
  }

  /** An element before any section panics with "section is not started",
      whether or not its value could be encoded. */
  lemma ElementBeforeSection(b: Bytes, m: Option<Bytes>)
    ensures SendElement(Init, "", Raw(b), Accepted, Accepted) == Fatal(SectionNotStarted)
    ensures SendElement(Init, "", Structured(m), Accepted, Accepted) == Fatal(SectionNotStarted)
    ensures SendElement(Init, "", Nil, Accepted, Accepted) == Ok(Init, None)
    ensures PanicValueOf(SectionNotStarted) == StringPanic("section is not started")
  {
  }

  /** After `Close`, starting another object section panics; the consumer
      still reads the first object's value. */
  lemma ObjectSectionAfterClose(sectionType: string, path: seq<string>, b42: Bytes, bb: Bytes)
    ensures var r := ObjectSection(Init, sectionType, path, Structured(Some(b42)), Accepted, Accepted);
            && r.Ok? && r.ret.None?
            && var c := Close(r.state, None);
            && c.Ok?
            && ObjectValue(c.state, 0, false) == Item(Some(b42))
            && ObjectSection(c.state, sectionType, path, Raw(bb), Accepted, Accepted) == Fatal(CloseOfClosedChannel)
  {
    var o := Section(ObjectKind, sectionType, path);
    AcceptedObjectSection(Init, sectionType, path, Structured(Some(b42)));
    assert Init.log + [Observed(o, [Element("", b42)])] == [Observed(o, [Element("", b42)])];
    var p1 := Producer(None, OpenChan, false, None, [Observed(o, [Element("", b42)])]);
    var c := p1.(elems := ClosedChan, sectionsClosed := true);
    assert Close(p1, None) == Ok(c, ());
    assert BeginSection(c, o) == Fatal(CloseOfClosedChannel);
  }

  /** The consumer takes the first element but not the second: the second
      `SendElement` reports ErrNoConsumer, and the consumer has seen exactly
      the first element before the stream closed. */
  lemma ElementWithoutConsumer(b0: Bytes, b1: Bytes)
    ensures var a := Section(ArrayKind, "", []);
      var p2 := Producer(None, OpenChan, false, None, [Observed(a, [Element("", b0)])]);
      SendElement(p2, "", Structured(Some(b1)), Accepted, TimedOut) == Ok(p2, Some(NoConsumer))
    ensures var a := Section(ArrayKind, "", []);
      var p2 := Producer(None, OpenChan, false, None, [Observed(a, [Element("", b0)])]);
      var c := p2.(elems := ClosedChan, sectionsClosed := true);
      && Close(p2, None) == Ok(c, ())
      && ArrayNext(c, 0, 0) == Item(b0) && ArrayNext(c, 0, 1) == End && NextSection(c, 1) == End
  {
    var p2 := Producer(None, OpenChan, false, None, [Observed(Section(ArrayKind, "", []), [Element("", b0)])]);
    UntakenElementChangesNothing(p2, "", Structured(Some(b1)), Accepted);
  }

  /** The context is cancelled while an element waits for the consumer:
      `SendElement` returns the context's error, and the consumer has seen
      exactly the first element when the stream closes. */
  lemma ElementCancelled(b0: Bytes, b1: Bytes)
    ensures var a := Section(ArrayKind, "", []);
      var p2 := Producer(None, OpenChan, false, None, [Observed(a, [Element("", b0)])]);
      SendElement(p2, "", Structured(Some(b1)), Accepted, Cancelled(Canceled)) == Ok(p2, Some(CtxError(Canceled)))
    ensures var a := Section(ArrayKind, "", []);
      var p2 := Producer(None, OpenChan, false, None, [Observed(a, [Element("", b0)])]);
      var c := p2.(elems := ClosedChan, sectionsClosed := true);
      && Close(p2, None) == Ok(c, ())
      && ArrayNext(c, 0, 0) == Item(b0) && ArrayNext(c, 0, 1) == End && NextSection(c, 1) == End
      && c.errSlot.None?
  {
    var p2 := Producer(None, OpenChan, false, None, [Observed(Section(ArrayKind, "", []), [Element("", b0)])]);
    RefusedElementKeepsSection(p2, "", Structured(Some(b1)), Accepted, Cancelled(Canceled));
  }

  /** `Value` on an object section returns the element once, then nil. */
  lemma ObjectValueOnce(bb: Bytes)
    ensures var r := ObjectSection(Init, "", [], Raw(bb), Accepted, Accepted);
            && r.Ok?
            && ObjectValue(r.state, 0, false) == Item(Some(bb))
            && ObjectValue(r.state, 0, true) == Item(None)
  {
    AcceptedObjectSection(Init, "", [], Raw(bb));
    assert [] + [Observed(Section(ObjectKind, "", []), [Element("", bb)])]
           == [Observed(Section(ObjectKind, "", []), [Element("", bb)])];
  }

  /** A failed section send is retried by the next element: after the
      consumer missed the section once, a later element delivers the
      section and then itself. */
  lemma SectionSendRetried(b0: Bytes, b1: Bytes)
    ensures var p1 := StartArraySection(Init, "t", []).state;
            var p2 := SendElement(p1, "", Raw(b0), TimedOut, Accepted);
            && p2 == Ok(p1, Some(NoConsumer))
            && var p3 := SendElement(p2.state, "", Raw(b1), Accepted, Accepted);
            && p3.Ok? && p3.ret.None?
            && p3.state.log == [Observed(Section(ArrayKind, "t", []), [Element("", b1)])]
  {
    var p1 := Producer(Some(Section(ArrayKind, "t", [])), OpenChan, false, None, []);
    assert TrySendSection(p1, TimedOut) == Ok(p1, Some(NoConsumer));
    AcceptedElementDeliversSection(p1, "", Raw(b1));
  }

  /** Starting a section after `Close` when no section was ever started
      does not panic (there is no element channel to close yet); the first
      element sent for it does, unless the context is already done. */
  lemma SectionAfterCloseWithoutSections(b: Bytes)
    ensures var c := Close(Init, None);
            && c.Ok?
            && var s := StartArraySection(c.state, "", []);
            && s.Ok?
            && SendElement(s.state, "", Raw(b), Accepted, Accepted) == Fatal(SendOnClosedChannel)
            && SendElement(s.state, "", Raw(b), Cancelled(Canceled), Accepted) == Ok(s.state, Some(CtxError(Canceled)))
  {
  }
}

=== FILE: section_views.dfy ===
/** The consumer side of a sectioned result: receiving sections from the
    section channel, `Next` on array and map sections, `Value` on object
    sections.

    A consumer's position is a cursor into what the producer has handed over
    so far.  A read either yields an item, reports the end of its sequence
    (the channel was closed), or would block (nothing more has been handed
    over and the channel is still open).
 */
module SectionViews {
  import opened Common
  import opened StreamLog
  import opened ResultSender

  datatype Read<+T> = Item(value: T) | End | Blocked

  /** `<-sections`: the section at position `cursor` of the section channel. */
  function NextSection(p: Producer, cursor: nat): (r: Read<Section>)
    ensures r.Item? <==> cursor < |p.log|
    ensures r.Item? ==> r.value == p.log[cursor].section
    ensures r.End? <==> cursor >= |p.log| && p.sectionsClosed
  {
    if cursor < |p.log| then Item(p.log[cursor].section)
    else if p.sectionsClosed then End
    else Blocked
  }

  /** `arraySection.Next` on observed section `i`, after `cursor` earlier
      successful calls: the next element's value, or `(nil, false)` once the
      element sequence is closed and drained. */
  function ArrayNext(p: Producer, i: nat, cursor: nat): (r: Read<Bytes>)
    requires i < |p.log|
    ensures r.Item? <==> cursor < |p.log[i].elements|
    ensures r.Item? ==> r.value == p.log[i].elements[cursor].value
    ensures r.End? <==> cursor >= |p.log[i].elements| && ElementsClosed(p, i)
  {
    var els := p.log[i].elements;
    if cursor < |els| then Item(els[cursor].value)
    else if ElementsClosed(p, i) then End
    else Blocked
  }

  /** `mapSection.Next`: like `ArrayNext`, but each element keeps its name;
      the end is `("", nil, false)`. */
  function MapNext(p: Producer, i: nat, cursor: nat): (r: Read<Element>)
    requires i < |p.log|
    ensures r.Item? <==> cursor < |p.log[i].elements|
    ensures r.Item? ==> r.value == p.log[i].elements[cursor]
    ensures r.End? <==> cursor >= |p.log[i].elements| && ElementsClosed(p, i)
  {
    var els := p.log[i].elements;
    if cursor < |els| then Item(els[cursor])
    else if ElementsClosed(p, i) then End
    else Blocked
  }

  /** `objectSection.Value`: `received` says whether `Value` was called
      before.  The first call takes one element from the channel (nil when
      the channel was closed without one); every later call returns nil
      without reading. */
  function ObjectValue(p: Producer, i: nat, received: bool): (r: Read<Option<Bytes>>)
    requires i < |p.log|
    ensures received ==> r == Item(None)
    ensures !received && |p.log[i].elements| > 0 ==> r == Item(Some(p.log[i].elements[0].value))
    ensures !received && |p.log[i].elements| == 0 ==> (r.Blocked? <==> !ElementsClosed(p, i))
    ensures !received && |p.log[i].elements| == 0 && ElementsClosed(p, i) ==> r == Item(None)
    ensures !r.Blocked? ==> r.Item?
  {
    var els := p.log[i].elements;
    if received then Item(None)
    else if |els| > 0 then Item(Some(els[0].value))
    else if ElementsClosed(p, i) then Item(None)
    else Blocked
  }

  function Values(els: seq<Element>): (r: seq<Bytes>)
    ensures |r| == |els|
    ensures forall k :: 0 <= k < |els| ==> r[k] == els[k].value
  {
    seq(|els|, k requires 0 <= k < |els| => els[k].value)
  }

  /** `for { v, ok := s.Next(); if !ok { break } … }` over observed array
      section `i`: collects what `Next` yields until it reports the end or
      would block.  The values are the section's elements in send order, and
      the end is reached exactly when the element sequence is closed. */
  method DrainArray(p: Producer, i: nat) returns (values: seq<Bytes>, ended: bool)
    requires i < |p.log|
    ensures values == Values(p.log[i].elements)
    ensures ended == ElementsClosed(p, i)
  {
    var els := p.log[i].elements;
    values := [];
    var cursor := 0;
    var r := ArrayNext(p, i, cursor);
    while r.Item?
      invariant cursor == |values| <= |els|
      invariant values == Values(els[..cursor])
      invariant r == ArrayNext(p, i, cursor)
      decreases |els| - cursor
    {
      assert els[..cursor + 1] == els[..cursor] + [els[cursor]];
      values := values + [r.value];
      cursor := cursor + 1;
      r := ArrayNext(p, i, cursor);
    }
    assert els[..cursor] == els;
    ended := r.End?;
  }

  /** `for s := range sections`: the sections received until the channel
      reports closed or would block — every observed section, in the order
      the producer started them. */
  method DrainSections(p: Producer) returns (sections: seq<Section>, ended: bool)
    ensures |sections| == |p.log|
    ensures forall k :: 0 <= k < |sections| ==> sections[k] == p.log[k].section
    ensures ended == p.sectionsClosed
  {
    sections := [];
    var cursor := 0;
    var r := NextSection(p, cursor);
    while r.Item?
      invariant cursor == |sections| <= |p.log|
      invariant forall k :: 0 <= k < cursor ==> sections[k] == p.log[k].section
      invariant r == NextSection(p, cursor)
      decreases |p.log| - cursor
    {
      sections := sections + [r.value];
      cursor := cursor + 1;
      r := NextSection(p, cursor);
    }
    ended := r.End?;
  }

  /** Reads never change their answer as the producer goes on: an element,
      section or object value once read stays the same, and a reported end
      stays an end. */
  lemma ReadsAreStable(p: Producer, q: Producer, i: nat, cursor: nat)
    requires Grows(p, q) && i < |p.log|
    ensures !ArrayNext(p, i, cursor).Blocked? ==> ArrayNext(q, i, cursor) == ArrayNext(p, i, cursor)
    ensures !MapNext(p, i, cursor).Blocked? ==> MapNext(q, i, cursor) == MapNext(p, i, cursor)
    ensures !NextSection(p, cursor).Blocked? ==> NextSection(q, cursor) == NextSection(p, cursor)
    ensures forall received :: !ObjectValue(p, i, received).Blocked? ==> ObjectValue(q, i, received) == ObjectValue(p, i, received)
  {
    assert p.log[i].elements <= q.log[i].elements;
  }
}

=== FILE: stream_log.dfy ===
/** What the consumer of a sectioned result has observed so far.  Every
    channel of the bus is unbuffered, so a section or element that a send
    handed over has been received by the consumer: the log of handed-over
    sections, each with the elements handed over on its element channel, is
    exactly the consumer's view.
 */
module StreamLog {
  import opened Common

  /** The three section shapes of a sectioned result. */
  datatype Kind = ArrayKind | MapKind | ObjectKind

  /** Section metadata, fixed when the section is started: `Type()` and `Path()`. */
  datatype Section = Section(kind: Kind, sectionType: string, path: seq<string>)

  /** One element: `name` is empty for array and object elements. */
  datatype Element = Element(name: string, value: Bytes)

  /** A section the consumer has received, with the elements received on it so far. */
  datatype Observed = Observed(section: Section, elements: seq<Element>)

  /** The log flattened into one event stream: a section, then its elements. */
  datatype Event = SectionEvent(section: Section) | ElementEvent(element: Element)

  function ElementEvents(els: seq<Element>): seq<Event> {
    if |els| == 0 then [] else ElementEvents(els[..|els| - 1]) + [ElementEvent(els[|els| - 1])]
  }

  function EntryEvents(o: Observed): seq<Event> {
    [SectionEvent(o.section)] + ElementEvents(o.elements)
  }

  function Events(log: seq<Observed>): seq<Event> {
    if |log| == 0 then [] else Events(log[..|log| - 1]) + EntryEvents(log[|log| - 1])
  }

  /** The last observed section receives one more element. */
  function AppendToLast(log: seq<Observed>, e: Element): (r: seq<Observed>)
    requires |log| > 0
    ensures |r| == |log|
    ensures r[..|log| - 1] == log[..|log| - 1]
    ensures r[|log| - 1].section == log[|log| - 1].section
    ensures r[|log| - 1].elements == log[|log| - 1].elements + [e]
  {
    var last := log[|log| - 1];
    log[..|log| - 1] + [Observed(last.section, last.elements + [e])]
  }

  /** Appending to the last observed section changes that section only. */
  lemma AppendToLastOfSnoc(pre: seq<Observed>, o: Observed, e: Element)
    ensures AppendToLast(pre + [o], e) == pre + [Observed(o.section, o.elements + [e])]
  {
    assert (pre + [o])[..|pre|] == pre;
  }

  lemma EventsSnoc(pre: seq<Observed>, o: Observed)
    ensures Events(pre + [o]) == Events(pre) + EntryEvents(o)
  {
    assert (pre + [o])[..|pre|] == pre;
  }

  lemma EventsOfNewSection(log: seq<Observed>, s: Section)
    ensures Events(log + [Observed(s, [])]) == Events(log) + [SectionEvent(s)]
  {
    EventsSnoc(log, Observed(s, []));
  }

  lemma EntryEventsOfAppend(o: Observed, e: Element)
    ensures EntryEvents(Observed(o.section, o.elements + [e])) == EntryEvents(o) + [ElementEvent(e)]
  {
    var els := o.elements + [e];
    assert els[..|els| - 1] == o.elements;
  }

  lemma EventsOfAppendToLast(log: seq<Observed>, e: Element)
    requires |log| > 0
    ensures Events(AppendToLast(log, e)) == Events(log) + [ElementEvent(e)]
  {
    var n := |log|;
    var r := AppendToLast(log, e);
    EntryEventsOfAppend(log[n - 1], e);
    calc {
      Events(r);
      Events(r[..n - 1]) + EntryEvents(r[n - 1]);
      { assert r[..n - 1] == log[..n - 1]; }
      Events(log[..n - 1]) + (EntryEvents(log[n - 1]) + [ElementEvent(e)]);
    }
  }
}

=== FILE: subsequence.dfy ===
/** Subsequences: `a` is obtained from `b` by deleting some entries, keeping
    the order of the rest.  Used to state that a consumer observes only what a
    producer attempted to send, in the order it was attempted.
 */
module Subsequence {

  ghost predicate IsSubseq<T>(a: seq<T>, b: seq<T>)
    decreases |b|
  {
    if |a| == 0 then true
    else if |b| == 0 then false
    else (a[0] == b[0] && IsSubseq(a[1..], b[1..])) || IsSubseq(a, b[1..])
  }

  lemma {:induction false} Reflexive<T>(a: seq<T>)
    ensures IsSubseq(a, a)
    decreases |a|
  {
    if |a| > 0 {
      Reflexive(a[1..]);
    }
  }

  /** Entries may be inserted in front of the larger sequence. */
  lemma {:induction false} ExtendLeft<T>(a: seq<T>, b: seq<T>, c: seq<T>)
    requires IsSubseq(a, b)
    ensures IsSubseq(a, c + b)
    decreases |c|
  {
    if |c| > 0 {
      ExtendLeft(a, b, c[1..]);
      assert (c + b)[1..] == c[1..] + b;
    } else {
      assert c + b == b;
    }
  }

  /** Subsequences of two parts combine into a subsequence of the whole. */
  lemma {:induction false} Concat<T>(a: seq<T>, b: seq<T>, c: seq<T>, d: seq<T>)
    requires IsSubseq(a, b) && IsSubseq(c, d)
    ensures IsSubseq(a + c, b + d)
    decreases |b|
  {
    if |a| == 0 {
      assert a + c == c;
      ExtendLeft(c, d, b);
    } else {
      assert (a + c)[0] == a[0] && (a + c)[1..] == a[1..] + c;
      assert (b + d)[0] == b[0] && (b + d)[1..] == b[1..] + d;
      if a[0] == b[0] && IsSubseq(a[1..], b[1..]) {
        Concat(a[1..], b[1..], c, d);
      } else {
        Concat(a, b[1..], c, d);
      }
    }
  }

  /** Entries may be appended to the larger sequence. */
  lemma ExtendRight<T>(a: seq<T>, b: seq<T>, c: seq<T>)
    requires IsSubseq(a, b)
    ensures IsSubseq(a, b + c)
  {
    Concat(a, b, [], c);
    assert a + [] == a;
  }

  lemma {:induction false} Transitive<T>(a: seq<T>, b: seq<T>, c: seq<T>)
    requires IsSubseq(a, b) && IsSubseq(b, c)
    ensures IsSubseq(a, c)
    decreases |c|
  {
    if |a| > 0 {
      if b[0] == c[0] && IsSubseq(b[1..], c[1..]) {
        if a[0] == b[0] && IsSubseq(a[1..], b[1..]) {
          Transitive(a[1..], b[1..], c[1..]);
        } else {
          Transitive(a, b[1..], c[1..]);
        }
      } else {
        Transitive(a, b, c[1..]);
      }
    }
  }

  /** Regrouping a concatenation, cited at the one triple a proof needs. */
  lemma Associative<T>(a: seq<T>, b: seq<T>, c: seq<T>)
    ensures a + b + c == a + (b + c)
  {
  }
}

=== FILE: trace.dfy ===
/** A handler's whole use of a result producer, as a sequence of calls, and
    what the consumer can observe of it.

    The main result, `ConsumerSeesAttemptsInOrder`: whatever the send
    outcomes, the consumer observes a subsequence of what the handler tried to
    send — each section at most once and after the sections started before
    it, each element after its section and after the elements sent before
    it.
 */
module Trace {
  import opened Common
  import opened StreamLog
  import opened ResultSender
  import opened Subsequence

  /** One call on the producer, with the outcomes of the blocking sends it
      may make. */
  datatype Op =
    | StartArray(sectionType: string, path: seq<string>)
    | StartMap(sectionType: string, path: seq<string>)
    | ObjectOp(sectionType: string, path: seq<string>, value: Value, sectionSend: SendOutcome, elementSend: SendOutcome)
    | SendOp(name: string, value: Value, sectionSend: SendOutcome, elementSend: SendOutcome)
    | CloseOp(err: Option<Error>)

  function Apply(p: Producer, op: Op): (r: Exec<Producer, Option<Error>>)
    requires Valid(p)
    ensures r.Ok? ==> Valid(r.state) && Grows(p, r.state)
  {
    match op
    case StartArray(t, path) =>
      (match StartArraySection(p, t, path)
       case Ok(q, _) => Ok(q, None)
       case Fatal(reason) => Fatal(reason))
    case StartMap(t, path) =>
      (match StartMapSection(p, t, path)
       case Ok(q, _) => Ok(q, None)
       case Fatal(reason) => Fatal(reason))
    case ObjectOp(t, path, v, so, eo) => ObjectSection(p, t, path, v, so, eo)
    case SendOp(name, v, so, eo) => SendElement(p, name, v, so, eo)
    case CloseOp(err) =>
      (match Close(p, err)
       case Ok(q, _) => Ok(q, None)
       case Fatal(reason) => Fatal(reason))
  }

  /** Runs the calls in order; the first panic ends the run. */
  function Run(p: Producer, ops: seq<Op>): (r: Exec<Producer, ()>)
    requires Valid(p)
    ensures r.Ok? ==> Valid(r.state) && Grows(p, r.state)
    decreases |ops|
  {
    if |ops| == 0 then Ok(p, ())
    else
      match Apply(p, ops[0])
      case Fatal(reason) => Fatal(reason)
      case Ok(q, _) =>
        var r := Run(q, ops[1..]);
        if r.Ok? then GrowsTransitive(p, q, r.state); r else r
  }

  /** The sections and elements one call tries to hand to the consumer. */
  function Attempted(op: Op): seq<Event> {
    match op
    case StartArray(t, path) => [SectionEvent(Section(ArrayKind, t, path))]
    case StartMap(t, path) => [SectionEvent(Section(MapKind, t, path))]
    case ObjectOp(t, path, v, _, _) => [SectionEvent(Section(ObjectKind, t, path))] + ElementAttempt("", v)
    case SendOp(name, v, _, _) => ElementAttempt(name, v)
    case CloseOp(_) => []
  }

  function Attempts(ops: seq<Op>): seq<Event>
    decreases |ops|
  {
    if |ops| == 0 then [] else Attempted(ops[0]) + Attempts(ops[1..])
  }

  /** After a successful `SendElement`, the observed log plus the pending
      section is what it was, or that followed by the element. */
  lemma SendElementVisible(p: Producer, name: string, v: Value, so: SendOutcome, eo: SendOutcome)
    requires Valid(p) && SendElement(p, name, v, so, eo).Ok?
    ensures IsSubseq(Visible(SendElement(p, name, v, so, eo).state), Visible(p) + ElementAttempt(name, v))
  {
    var r := SendElement(p, name, v, so, eo);
    if v.Nil? || r.ret.Some? {
      Reflexive(Visible(p));
      ExtendRight(Visible(p), Visible(p), ElementAttempt(name, v));
    } else {
      assert Pending(r.state) == [];
      assert Visible(r.state) == Visible(p) + ElementAttempt(name, v);
      Reflexive(Visible(r.state));
    }
  }

  /** One call: what the consumer has observed, plus the pending section,
      stays within what was there before plus what the call attempted. */
  lemma StepOrder(p: Producer, op: Op)
    requires Valid(p) && Apply(p, op).Ok?
    ensures IsSubseq(Visible(Apply(p, op).state), Visible(p) + Attempted(op))
  {
    var q := Apply(p, op).state;
    match op
    case StartArray(t, path) =>
      SectionStartOrder(p, q, Section(ArrayKind, t, path));
    case StartMap(t, path) =>
      SectionStartOrder(p, q, Section(MapKind, t, path));
    case ObjectOp(t, path, v, so, eo) =>
      var s := Section(ObjectKind, t, path);
      var p1 := BeginSection(p, s).state;
      SendElementVisible(p1, "", v, so, eo);
      SectionStartOrder(p, p1, s);
      // Visible(p1) + attempt is within Visible(p) + [s] + attempt
      Reflexive(ElementAttempt("", v));
      Concat(Visible(p1), Visible(p) + [SectionEvent(s)], ElementAttempt("", v), ElementAttempt("", v));
      Transitive(Visible(q), Visible(p1) + ElementAttempt("", v), Visible(p) + [SectionEvent(s)] + ElementAttempt("", v));
      Associative(Visible(p), [SectionEvent(s)], ElementAttempt("", v));
    case SendOp(name, v, so, eo) =>
      SendElementVisible(p, name, v, so, eo);
    case CloseOp(err) =>
      Reflexive(Visible(p));
      ExtendRight(Visible(p), Visible(p), []);
  }

  /** Starting a section: the observed log is unchanged and the new section
      replaces any pending one. */
  lemma SectionStartOrder(p: Producer, q: Producer, s: Section)
    requires Valid(p) && BeginSection(p, s) == Ok(q, ())
    ensures q.log == p.log && Visible(q) == Events(p.log) + [SectionEvent(s)]
    ensures IsSubseq(Visible(q), Visible(p) + [SectionEvent(s)])
  {
    Reflexive(Events(p.log));
    Reflexive([SectionEvent(s)]);
    ExtendLeft([SectionEvent(s)], [SectionEvent(s)], Pending(p));
    Concat(Events(p.log), Events(p.log), [SectionEvent(s)], Pending(p) + [SectionEvent(s)]);
    Associative(Events(p.log), Pending(p), [SectionEvent(s)]);
  }

  lemma {:induction false} RunOrder(p: Producer, ops: seq<Op>)
    requires Valid(p) && Run(p, ops).Ok?
    ensures IsSubseq(Visible(Run(p, ops).state), Visible(p) + Attempts(ops))
    decreases |ops|
  {
    if |ops| == 0 {
      Reflexive(Visible(p));
      assert Visible(p) + Attempts(ops) == Visible(p);
    } else {
      var q := Apply(p, ops[0]).state;
      var rest := ops[1..];
      assert Run(p, ops) == Run(q, rest);
      StepOrder(p, ops[0]);
      RunOrder(q, rest);
      Reflexive(Attempts(rest));
      Concat(Visible(q), Visible(p) + Attempted(ops[0]), Attempts(rest), Attempts(rest));
      Transitive(Visible(Run(p, ops).state), Visible(q) + Attempts(rest), Visible(p) + Attempted(ops[0]) + Attempts(rest));
      assert Attempts(ops) == Attempted(ops[0]) + Attempts(rest);
      Associative(Visible(p), Attempted(ops[0]), Attempts(rest));
    }
  }

  /** Whatever the send outcomes, a producer that did not panic has handed
      the consumer a subsequence of what its calls attempted, in call order. */
  lemma ConsumerSeesAttemptsInOrder(ops: seq<Op>)
    requires Run(Init, ops).Ok?
    ensures IsSubseq(Events(Run(Init, ops).state.log), Attempts(ops))
  {
    var q := Run(Init, ops).state;
    RunOrder(Init, ops);
    assert Visible(Init) == [];
    assert Visible(Init) + Attempts(ops) == Attempts(ops);
    Reflexive(Events(q.log));
    ExtendRight(Events(q.log), Events(q.log), Pending(q));
    Transitive(Events(q.log), Visible(q), Attempts(ops));
  }
}
